=== FILE: README.md ===
# BinaryFile: a typed accessor over a seekable byte stream

This project models the `BinaryFile` class of `binary.py`. The class wraps a seekable binary
file. It writes and reads fixed-width little-endian two's-complement integers and
length-prefixed UTF-8 strings at the current cursor. It also has positional variants
(`*_to` / `*_from`) that seek to an offset, act there, and then seek back to the saved cursor.

The file object becomes an immutable value `Stream(data, cursor)`. The cursor may point
past the end. Four primitives model the Python file semantics the class relies on:

- `Seek` covers `SEEK_SET` and `SEEK_END`.
- `Tell` returns the cursor.
- `Read(k)` returns at most `k` bytes, and everything left when `k` is negative (as `io.BytesIO` does; see "## Left out" for buffered files).
- `Write` overwrites from the cursor; a non-empty write zero-fills a gap past the end, and an empty one changes nothing.

`Goto` and `GetSize` cannot fail under the seek precondition, so they return the stream (and the
size) directly. Every other operation takes a stream and returns an `Outcome`. It is
`Done(stream, value)`, or `Raised(stream, error)` for a Python exception. A raised exception still carries the stream,
because the positional variants leave the cursor moved when the call fails.

Modules:

- `Errors`: the exception kinds and a plain `Result`.
- `LittleEndian`: `byte`, `EncodeLE` (`int.to_bytes(size, 'little', signed=True)`) and
  `DecodeLE` (`int.from_bytes(data, 'little', signed=True)`).
- `Streams`: the stream value, its primitives, and the `Overwrites` predicate that says
  exactly what a write changes.
- `BinaryFile`: the ten methods of the class.
- `Laws`: round trips and non-interference across several calls.
- `Scenarios`: literal boundary cases and an end-to-end layout.

Three facts of the code a reader may not expect:

- The string length prefix is written with the signed `write_integer(length, 2)`. So a payload
  longer than 32767 bytes raises `OverflowError`, although 2 unsigned bytes could hold 65535. The
  prefix is also read back signed. A prefix of -1 (FF FF) makes the payload read run to the end of
  the stream; lower prefixes do so on `io.BytesIO`.
- A short read is not an error. `read_intiger` decodes whatever bytes came back, and 0 when none did.
- The positional variants restore the cursor only when the inner call succeeds. On failure the
  cursor stays at the target offset.

The class's `read_intiger` keeps its source spelling only in the citations below. The model calls it `ReadInteger`.

## Model

| member | source | states |
|---|---|---|
| `LittleEndian.EncodeLE` | binary.py:48 | a negative width fails with `NegativeLength`; otherwise the value is accepted iff it lies in [-2^(8·size-1), 2^(8·size-1)) (only 0 for width 0), else `Overflow`; an accepted value yields exactly `size` bytes that decode back to it |
| `LittleEndian.DecodeLE` | binary.py:101 | the decoded value of any byte string lies in the signed range of its length; the empty string gives 0 |
| `LittleEndian.TwosComplementRoundTrip` | binary.py:48 | the two's-complement byte pattern of an in-range integer decodes back to that integer |
| `LittleEndian.UnsignedRoundTrip` | binary.py:48 | the base-256 digits of an unsigned value below 256^size decode back to that value |
| `LittleEndian.UnsignedInverse` | binary.py:101 | re-encoding the unsigned value of a byte string at its own width reproduces the string |
| `LittleEndian.UnsignedDigit` | binary.py:48 | byte i of the unsigned `size`-byte encoding of u is base-256 digit i of u, least significant first |
| `LittleEndian.LittleEndianDigits` | binary.py:48 | byte i of an accepted `EncodeLE(n, size)` is digit i, counting from the least significant, of n's two's-complement pattern: the byte order is little-endian |
| `LittleEndian.DecodeEncode` | binary.py:101 | every byte string is the encoding of its decoding at its own width, so the codec is a bijection on each width |
| `LittleEndian.EncodeInjective` | binary.py:48 | two integers with the same encoding at one width are equal |
| `Streams.Seek` | binary.py:23-26 | a seek leaves the bytes unchanged and places the cursor at the offset from the start, or at length plus offset from the end |
| `Streams.Tell` | binary.py:33 | returns the cursor, leaving the stream untouched; seeking from the start to the returned position gives back the identical stream |
| `Streams.Read` | binary.py:100 | a read leaves the bytes unchanged, returns the consecutive bytes from the cursor, `min(k, remaining)` of them (all remaining for negative `k`), and advances the cursor by the count returned |
| `Streams.Write` | binary.py:49 | a write advances the cursor by the byte count, puts the bytes at the cursor, zero-fills any gap past the old end when the write is non-empty, and leaves every other byte as it was; an empty write changes no byte |
| `Streams.OverwritesUnique` | binary.py:49 | the stream after a write is fully determined by the old bytes, the cursor and the written bytes |
| `Streams.WriteConcat` | binary.py:75-77 | two consecutive writes have the same effect as one write of their concatenation |
| `BinaryFile.Goto` | binary.py:23-26 | a non-negative position becomes the cursor; a negative one is counted back from the end; the bytes are unchanged |
| `BinaryFile.GetSize` | binary.py:33-37 | returns the stream length and hands back the stream unchanged, cursor included |
| `BinaryFile.WriteInteger` | binary.py:48-50 | succeeds iff width and value are acceptable to the encoder; failure raises the encoder's error with the stream untouched; success returns `size`, advances the cursor by `size`, lays the encoding over the cursor position, changes nothing else, and the written cell decodes to `n` |
| `BinaryFile.WriteIntegerTo` | binary.py:60-64 | the intended method: succeeds iff `write_integer` at the `goto` target does, then with its result, its bytes and the caller's cursor; on failure the stream is left as `goto` made it |
| `BinaryFile.WriteIntegerToAsWritten` | binary.py:60-62 | the method as written always raises `AttributeError`, with the bytes unchanged and the cursor at the `goto` target |
| `BinaryFile.WriteString` | binary.py:72-78 | succeeds iff the payload has at most 32767 bytes, else raises `Overflow` with nothing written; success returns `L + 2`, advances the cursor by `L + 2`, and lays a prefix decoding to `L` followed by the payload at the cursor, changing nothing else |
| `BinaryFile.WriteStringTo` | binary.py:87-91 | succeeds iff `write_string` at the `goto` target does, then with its result, its bytes and the caller's cursor; on failure the stream is left as `goto` made it |
| `BinaryFile.ReadInteger` | binary.py:100-101 | never fails and never changes the bytes; with `size` bytes available it decodes them and advances by `size`; on a short read or a negative size it decodes what remains and stops at the end, or stays where it is if already past it; with nothing remaining the value is 0 |
| `BinaryFile.ReadIntegerFrom` | binary.py:110-114 | never fails, returns the value `read_intiger` gives at the `goto` target, and hands back the stream exactly as it was |
| `BinaryFile.ReadString` | binary.py:121-123 | never fails and never changes the bytes; with a full prefix of value `L >= 0` and `L` payload bytes it returns them and stops after them; with a negative or over-long prefix it returns the rest of the stream; with no full prefix it returns nothing |
| `BinaryFile.ReadStringFrom` | binary.py:131-135 | never fails, returns the payload `read_string` gives at the `goto` target, and hands back the stream exactly as it was |
| `Laws.OutsideCellUnchanged` | binary.py:49 | bytes that lie inside the old stream and outside a write's cell read the same after the write |
| `Laws.IntegerRoundTrip` | binary.py:41-101 | an in-range integer written at the cursor and read back from that offset at the same width is returned, with the cursor just past the cell |
| `Laws.StringRoundTrip` | binary.py:66-123 | a string cell read from its first byte returns the payload and leaves the cursor `L + 2` bytes on |
| `Laws.PositionalIntegerRoundTrip` | binary.py:52-114 | an integer written at an absolute offset is read back from that offset, and neither call moves the caller's cursor |
| `Laws.PositionalStringRoundTrip` | binary.py:80-135 | a string written at an absolute offset is read back from that offset, and neither call moves the caller's cursor |
| `Laws.IntegerCellSurvivesWrite` | binary.py:94-101 | an integer cell reads the same after a write whose cell does not overlap it |
| `Laws.TailRead` | binary.py:26 | seeking `k` bytes back from the end and reading `k` bytes decodes the last `k` bytes and stops at the end |
| `Laws.WriteIntegerToTypoAlwaysRaises` | binary.py:62 | for every argument the intended method accepts, the method as written raises `AttributeError` after moving the cursor |
| `Scenarios.KnownEncodings` | binary.py:48 | 256, -2 and -32768 in two bytes encode as 00 01, FE FF and 00 80, and 42 in four bytes as 2A 00 00 00 |
| `Scenarios.OneByteBoundary` | binary.py:48 | in one byte, 127 and -128 are accepted and 127 round-trips; 128 and -129 raise `Overflow` with the stream untouched |
| `Scenarios.NegativeWidthRaises` | binary.py:48 | a negative width raises `NegativeLength` with the stream untouched |
| `Scenarios.StringLengthBoundary` | binary.py:75 | a 32767-byte payload is written as 32769 bytes; a 32768-byte payload raises `Overflow` |
| `Scenarios.NegativePrefixReadsToEnd` | binary.py:121-122 | a prefix of bytes FF FF reads as -1, and the payload is the rest of the stream |
| `Scenarios.WriteThenReadBack` | binary.py:41-123 | on an empty stream, 42 in 4 bytes then "Hello, World!" gives 19 bytes, and reading from offset 0 returns 42 and then the string |

## Left out

- UTF-8 encoding and decoding (RFC 3629): strings are modelled by their encoded payload bytes. The `UnicodeDecodeError` that `data.decode('utf-8')` can raise at binary.py:123 is not modelled, so `ReadString` never fails.
- Seeks that would land before offset 0: `Goto` and the positional variants require `|data| + pos >= 0` for a negative `pos`. A real file raises `OSError` there and `io.BytesIO` clamps to 0, so the outcome depends on the file object.
- Streams.Read, and so BinaryFile.ReadInteger, BinaryFile.ReadString, BinaryFile.ReadIntegerFrom and BinaryFile.ReadStringFrom: a count below -1 reads to the end, as on `io.BytesIO` and raw files; a buffered file (what `open(..., "wb+")` returns) raises `ValueError` for such a count instead. So `read_intiger(size)` with `size <= -2`, and `read_string` on a prefix decoding to -2 or lower (FE FF, or 00 80 for -32768), raise on buffered files but read to the end in the model. On a buffered file `read_intiger_from` (binary.py:112) and `read_string_from` (binary.py:133) then raise too, skip the restore at binary.py:113 and :134, and leave the cursor at the target, where the model returns the stream unchanged.
- File-object behaviour outside the abstract stream: buffering, non-seekable or read-only handles, and I/O errors from `read`, `write` and `seek`.
- BinaryFile.WriteString, BinaryFile.WriteStringTo: the model takes the already-encoded payload bytes, so it cannot show that `s.encode('utf-8')` at binary.py:72 raises `UnicodeEncodeError` for a string holding a lone surrogate (such as `'\ud800'`). That happens before anything is written; in `write_string_to` it happens after `goto` at binary.py:88, so the cursor stays at the target and the restore at binary.py:90 is skipped.
- Exception classes and their messages: an exception is only its kind (`NegativeLength`, `Overflow`, `MissingAttribute`).
- The constructor (binary.py:8-13): it only stores the file object, which the model passes explicitly to every operation.
- The `__main__` demonstration (binary.py:139-145): it opens a real file and prints. As written it never seeks back to 0 before reading, so it reads from the end of the stream.
- Concurrency: the class has none, and shared use of one handle is outside the model.

## Findings

| source | as written | input that shows it | evidently intended | confidence | as-written member | corrected member |
|---|---|---|---|---|---|---|
| binary.py:62 | `write_integer_to` calls `self.write_intiger`, which the class does not define, so it raises `AttributeError` after `goto` has moved the cursor | any call, e.g. `write_integer_to(42, 4, 0)` on an empty file | delegate to `self.write_integer(n, size)` | high (not executed) | `BinaryFile.WriteIntegerToAsWritten`, `Laws.WriteIntegerToTypoAlwaysRaises` | `BinaryFile.WriteIntegerTo` |

=== FILE: binary_file.dfy ===
/** The `BinaryFile` accessor: typed reads and writes over one stream, plus
    positional variants that act at a given offset and then seek back.
    Every operation takes the stream and returns the stream it leaves behind. */
module BinaryFile {
  import opened Errors
  import opened LittleEndian
  import opened Streams

  /** What a call leaves behind. A raised exception still leaves the stream in
      whatever state the statements before it produced. */
  datatype Outcome<T> = Done(st: Stream, value: T) | Raised(st: Stream, error: Error)

  /** The string length prefix goes through the signed 2-byte integer path, so the
      longest payload it can announce is 2^15 - 1 bytes. */
  const MaxStringLength: nat := 32767

  /** A seek the file object can perform: from the end it must not land before
      offset 0 (what happens then depends on the file object). */
  predicate CanGoto(s: Stream, pos: int) {
    pos >= 0 || |s.data| + pos >= 0
  }

  /** The absolute offset `goto(pos)` selects. */
  function Target(s: Stream, pos: int): nat
    requires CanGoto(s, pos)
  {
    if pos >= 0 then pos else |s.data| + pos
  }

  function Goto(s: Stream, pos: int): (r: Stream)
    requires CanGoto(s, pos)
    ensures r.data == s.data
    ensures pos >= 0 ==> r.cursor == pos
    ensures pos < 0 ==> r.cursor == |s.data| + pos
  {
    if pos >= 0 then Seek(s, pos, FromStart) else Seek(s, pos, FromEnd)
  }

  /** The stream length, found by seeking to the end and back. */
  function GetSize(s: Stream): (r: (Stream, nat))
    ensures r.1 == |s.data|
    ensures r.0 == s
  {
    var current := Tell(s);
    var atEnd := Seek(s, 0, FromEnd);
    var size := Tell(atEnd);
    (Seek(atEnd, current, FromStart), size)
  }

  function WriteInteger(s: Stream, n: int, size: int): (r: Outcome<int>)
    ensures r.Done? <==> size >= 0 && InRange(n, size)
    ensures size < 0 ==> r == Raised(s, NegativeLength)
    ensures size >= 0 && !InRange(n, size) ==> r == Raised(s, Overflow)
    ensures r.Done? ==> r.value == size && r.st.cursor == s.cursor + size
    ensures r.Done? ==> Overwrites(s.data, s.cursor, EncodeLE(n, size).value, r.st.data)
    ensures r.Done? && size > 0 ==>
              s.cursor + size <= |r.st.data| && DecodeLE(r.st.data[s.cursor .. s.cursor + size]) == n
  {
    match EncodeLE(n, size)
    case Err(e) => Raised(s, e)
    case Ok(bytes) => Done(Write(s, bytes), size)
  }

  /** The intended `write_integer_to`: `write_integer` at the offset `goto(pos)`
      selects, then back to the saved cursor. The restore is skipped when the write
      raises, so a failure leaves the cursor at that offset.
      Divergence: binary.py:62 calls `write_intiger`, a name the class lacks; this
      member delegates to `write_integer` as evidently intended, and
      `WriteIntegerToAsWritten` models the code as it stands. */
  function WriteIntegerTo(s: Stream, n: int, size: int, pos: int): (r: Outcome<int>)
    requires CanGoto(s, pos)
    ensures var base := WriteInteger(Goto(s, pos), n, size);
              && r.Done? == base.Done?
              && (r.Done? ==> r.value == base.value && r.st == Stream(base.st.data, s.cursor))
              && (r.Raised? ==> r == base)
    ensures r.Raised? ==> r.st == Goto(s, pos)
    ensures r.Done? ==> r.value == size && Overwrites(s.data, Target(s, pos), EncodeLE(n, size).value, r.st.data)
  {
    var current := Tell(s);
    match WriteInteger(Goto(s, pos), n, size)
    case Done(after, written) => Done(Seek(after, current, FromStart), written)
    case Raised(after, e) => Raised(after, e)
  }

  /** `write_integer_to` as the source spells it: the call names `write_intiger`,
      which the class does not define, so the attribute lookup raises after `goto`
      has already moved the cursor, whatever the arguments. */
  function WriteIntegerToAsWritten(s: Stream, n: int, size: int, pos: int): (r: Outcome<int>)
    requires CanGoto(s, pos)
    ensures r.Raised? && r.error == MissingAttribute
    ensures r.st.data == s.data && r.st.cursor == Target(s, pos)
  {
    Raised(Goto(s, pos), MissingAttribute)
  }

  /** `write_string` on the UTF-8 encoding of the text: a signed 2-byte length
      prefix, then the payload. */
  function WriteString(s: Stream, payload: seq<byte>): (r: Outcome<int>)
    ensures r.Done? <==> |payload| <= MaxStringLength
    ensures r.Raised? ==> r == Raised(s, Overflow)
    ensures r.Done? ==> r.value == |payload| + 2 && r.st.cursor == s.cursor + |payload| + 2
    ensures r.Done? ==> Overwrites(s.data, s.cursor, EncodeLE(|payload|, 2).value + payload, r.st.data)
    ensures r.Done? ==>
              && s.cursor + 2 + |payload| <= |r.st.data|
              && DecodeLE(r.st.data[s.cursor .. s.cursor + 2]) == |payload|
              && r.st.data[s.cursor + 2 .. s.cursor + 2 + |payload|] == payload
  {
    match WriteInteger(s, |payload|, 2)
    case Raised(after, e) => Raised(after, e)
    case Done(after, _) =>
      var cell := EncodeLE(|payload|, 2).value + payload;
      WriteConcat(s, EncodeLE(|payload|, 2).value, payload);
      assert Write(s, cell).data[s.cursor .. s.cursor + 2] == cell[..2];
      assert Write(s, cell).data[s.cursor + 2 .. s.cursor + 2 + |payload|] == cell[2..];
      Done(Write(after, payload), |payload| + 2)
  }

  function WriteStringTo(s: Stream, payload: seq<byte>, pos: int): (r: Outcome<int>)
    requires CanGoto(s, pos)
    ensures var base := WriteString(Goto(s, pos), payload);
              && r.Done? == base.Done?
              && (r.Done? ==> r.value == base.value && r.st == Stream(base.st.data, s.cursor))
              && (r.Raised? ==> r == base)
    ensures r.Raised? ==> r.st == Goto(s, pos)
    ensures r.Done? ==>
              r.value == |payload| + 2 &&
              Overwrites(s.data, Target(s, pos), EncodeLE(|payload|, 2).value + payload, r.st.data)
  {
    var current := Tell(s);
    match WriteString(Goto(s, pos), payload)
    case Done(after, written) => Done(Seek(after, current, FromStart), written)
    case Raised(after, e) => Raised(after, e)
  }

  /** `read_intiger`: decode whatever `read(size)` returns. A short read is not an
      error, it decodes the bytes that remain (0 when none do). */
  function ReadInteger(s: Stream, size: int): (r: Outcome<int>)
    ensures r.Done? && r.st.data == s.data
    ensures 0 <= size && s.cursor + size <= |s.data| ==>
              r.st.cursor == s.cursor + size && r.value == DecodeLE(s.data[s.cursor .. s.cursor + size])
    ensures (size < 0 || |s.data| < s.cursor + size) ==>
              r.st.cursor == Max(s.cursor, |s.data|) && r.value == DecodeLE(s.data[Min(s.cursor, |s.data|)..])
    ensures Remaining(s) == 0 ==> r.value == 0
  {
    var (after, bytes) := Read(s, size);
    assert 0 <= size && s.cursor + size <= |s.data| ==> bytes == s.data[s.cursor .. s.cursor + size];
    assert (size < 0 || |s.data| < s.cursor + size) ==> bytes == s.data[Min(s.cursor, |s.data|)..];
    Done(after, DecodeLE(bytes))
  }

  function ReadIntegerFrom(s: Stream, size: int, pos: int): (r: Outcome<int>)
    requires CanGoto(s, pos)
    ensures r.Done? && r.st == s
    ensures r.value == ReadInteger(Goto(s, pos), size).value
  {
    var current := Tell(s);
    match ReadInteger(Goto(s, pos), size)
    case Done(after, value) => Done(Seek(after, current, FromStart), value)
    case Raised(after, e) => Raised(after, e)
  }

  /** `read_string`: a signed 2-byte length through `read_intiger`, then `read` of
      that many bytes. A negative length (corrupt prefix) reads to the end. The
      payload is returned undecoded. */
  function ReadString(s: Stream): (r: Outcome<seq<byte>>)
    ensures r.Done? && r.st.data == s.data
    ensures |s.data| < s.cursor + 2 ==> r.value == [] && r.st.cursor == Max(s.cursor, |s.data|)
    ensures s.cursor + 2 <= |s.data| ==>
              var length := DecodeLE(s.data[s.cursor .. s.cursor + 2]);
              var start := s.cursor + 2;
              && (0 <= length && start + length <= |s.data| ==>
                    r.value == s.data[start .. start + length] && r.st.cursor == start + length)
              && ((length < 0 || |s.data| < start + length) ==>
                    r.value == s.data[start..] && r.st.cursor == |s.data|)
  {
    var prefix := ReadInteger(s, 2);
    var (after, payload) := Read(prefix.st, prefix.value);
    assert s.cursor + 2 <= |s.data| ==>
             var length := DecodeLE(s.data[s.cursor .. s.cursor + 2]);
             var start := s.cursor + 2;
             && (0 <= length && start + length <= |s.data| ==> payload == s.data[start .. start + length])
             && ((length < 0 || |s.data| < start + length) ==> payload == s.data[start..]);
    Done(after, payload)
  }

  function ReadStringFrom(s: Stream, pos: int): (r: Outcome<seq<byte>>)
    requires CanGoto(s, pos)
    ensures r.Done? && r.st == s
    ensures r.value == ReadString(Goto(s, pos)).value
  {
    var current := Tell(s);
    match ReadString(Goto(s, pos))
    case Done(after, value) => Done(Seek(after, current, FromStart), value)
    case Raised(after, e) => Raised(after, e)
  }
}

=== FILE: errors.dfy ===
/** Failure kinds of the binary accessor, and a plain success/failure wrapper
    for the pure encoders. */
module Errors {

  /** The exceptions the accessor can raise once file-object failures are set aside. */
  datatype Error =
    | NegativeLength    // int.to_bytes with a negative length: ValueError
    | Overflow          // int.to_bytes with a value that does not fit: OverflowError
    | MissingAttribute  // a call to a method the class does not define: AttributeError

  datatype Result<T> = Ok(value: T) | Err(error: Error)
}

=== FILE: laws.dfy ===
/** Laws relating several accessor calls: what a writer lays down, the matching
    reader gets back, and a write leaves the other cells of the stream alone. */
module Laws {
  import opened Errors
  import opened LittleEndian
  import opened Streams
  import opened BinaryFile

  /** Bytes of the stream outside a write's cell read the same after the write. */
  lemma OutsideCellUnchanged(before: seq<byte>, at: nat, bs: seq<byte>, after: seq<byte>, p: nat, k: nat)
    requires Overwrites(before, at, bs, after)
    requires p + k <= |before|
    requires p + k <= at || at + |bs| <= p
    ensures p + k <= |after| && after[p .. p + k] == before[p .. p + k]
  {
    forall i | p <= i < p + k
      ensures after[i] == before[i]
    {
      assert after[i] == ByteAt(before, i);
    }
  }

  /** Integer round trip: an integer cell written at the cursor and read back
      from the same offset with the same width yields the integer, and leaves the
      cursor just past the cell. */
  lemma IntegerRoundTrip(s: Stream, n: int, size: int)
    requires size >= 0 && InRange(n, size)
    ensures var w := WriteInteger(s, n, size);
              && w.Done?
              && ReadInteger(Goto(w.st, s.cursor), size) == Done(Stream(w.st.data, s.cursor + size), n)
  {
  }

  /** String round trip: a string cell read from its first byte gives back the
      payload and leaves the cursor `|payload| + 2` bytes further on. */
  lemma StringRoundTrip(s: Stream, payload: seq<byte>)
    requires |payload| <= MaxStringLength
    ensures var w := WriteString(s, payload);
              && w.Done?
              && ReadString(Goto(w.st, s.cursor)) == Done(Stream(w.st.data, s.cursor + |payload| + 2), payload)
  {
  }

  /** Writing at an absolute offset and reading back from that offset gives the
      integer, and neither call moves the caller's cursor. */
  lemma PositionalIntegerRoundTrip(s: Stream, n: int, size: int, pos: int)
    requires CanGoto(s, pos) && size >= 0 && InRange(n, size)
    ensures var w := WriteIntegerTo(s, n, size, pos);
              && w.Done? && w.st.cursor == s.cursor
              && ReadIntegerFrom(w.st, size, Target(s, pos)) == Done(w.st, n)
  {
    var w := WriteIntegerTo(s, n, size, pos);
    var g := Goto(s, pos);
    IntegerRoundTrip(g, n, size);
  }

  lemma PositionalStringRoundTrip(s: Stream, payload: seq<byte>, pos: int)
    requires CanGoto(s, pos) && |payload| <= MaxStringLength
    ensures var w := WriteStringTo(s, payload, pos);
              && w.Done? && w.st.cursor == s.cursor
              && ReadStringFrom(w.st, Target(s, pos)) == Done(w.st, payload)
  {
    StringRoundTrip(Goto(s, pos), payload);
  }

  /** A cell read before another write is read identically after it, provided
      the write's cell does not overlap it. */
  lemma IntegerCellSurvivesWrite(s: Stream, bs: seq<byte>, p: nat, size: nat)
    requires p + size <= |s.data|
    requires p + size <= s.cursor || s.cursor + |bs| <= p
    ensures ReadInteger(Goto(Write(s, bs), p), size).value == ReadInteger(Goto(s, p), size).value
  {
    OutsideCellUnchanged(s.data, s.cursor, bs, Write(s, bs).data, p, size);
  }

  /** Seeking k bytes back from the end and reading k bytes decodes the last k
      bytes of the stream. */
  lemma TailRead(s: Stream, k: nat)
    requires 0 < k <= |s.data|
    ensures ReadInteger(Goto(s, -(k as int)), k) == Done(Stream(s.data, |s.data|), DecodeLE(s.data[|s.data| - k ..]))
  {
    var g := Goto(s, -(k as int));
    assert g.cursor + k == |s.data|;
    assert s.data[g.cursor .. g.cursor + k] == s.data[|s.data| - k ..];
  }

  /** The typo in `write_integer_to` is not an edge case: for every argument the
      intended method accepts, the method as written raises instead, with the
      cursor moved to the target offset. */
  lemma WriteIntegerToTypoAlwaysRaises(s: Stream, n: int, size: int, pos: int)
    requires CanGoto(s, pos) && size >= 0 && InRange(n, size)
    ensures WriteIntegerTo(s, n, size, pos).Done?
    ensures WriteIntegerToAsWritten(s, n, size, pos) == Raised(Goto(s, pos), MissingAttribute)
  {
  }
}

=== FILE: little_endian.dfy ===
/** Fixed-width little-endian two's-complement integers, as produced by
    `int.to_bytes(size, byteorder='little', signed=True)` and read back by
    `int.from_bytes(data, byteorder='little', signed=True)`. */
module LittleEndian {
  import opened Errors

  type byte = x: int | 0 <= x < 256

  /** 256 to the power k: the number of distinct k-byte patterns. */
  function Pow256(k: nat): (p: nat)
    ensures p >= 1
  {
    if k == 0 then 1 else 256 * Pow256(k - 1)
  }

  /** 2^(8*size - 1): a signed size-byte integer lies in [-Half(size), Half(size)). */
  function Half(size: nat): nat
    requires size > 0
  {
    128 * Pow256(size - 1)
  }

  /** The values `to_bytes(size, signed=True)` accepts; zero bytes hold only 0. */
  predicate InRange(n: int, size: nat) {
    if size == 0 then n == 0 else -(Half(size) as int) <= n < Half(size)
  }

  /** The unsigned pattern of n in two's complement over `size` bytes. */
  function Wrap(n: int, size: nat): nat
    requires InRange(n, size)
  {
    if n >= 0 then n else n + Pow256(size)
  }

  /** The `size` low-order base-256 digits of u, least significant first. */
  function ToUnsigned(u: nat, size: nat): (bs: seq<byte>)
    ensures |bs| == size
  {
    if size == 0 then [] else [u % 256] + ToUnsigned(u / 256, size - 1)
  }

  /** The unsigned value of a little-endian byte string. */
  function FromUnsigned(bs: seq<byte>): (u: nat)
    ensures u < Pow256(|bs|)
  {
    if |bs| == 0 then 0 else bs[0] + 256 * FromUnsigned(bs[1..])
  }

  /** Signed little-endian decoding of a byte string of any length; the empty
      string decodes to 0. */
  function DecodeLE(bs: seq<byte>): (n: int)
    ensures InRange(n, |bs|)
  {
    var u := FromUnsigned(bs);
    if |bs| > 0 && u >= Half(|bs|) then u - Pow256(|bs|) else u
  }

  /** Signed little-endian encoding over exactly `size` bytes. */
  function EncodeLE(n: int, size: int): (r: Result<seq<byte>>)
    ensures size < 0 ==> r == Err(NegativeLength)
    ensures size >= 0 && !InRange(n, size) ==> r == Err(Overflow)
    ensures r.Ok? <==> size >= 0 && InRange(n, size)
    ensures r.Ok? ==> |r.value| == size && DecodeLE(r.value) == n
  {
    if size < 0 then Err(NegativeLength)
    else if !InRange(n, size) then Err(Overflow)
    else
      TwosComplementRoundTrip(n, size);
      Ok(ToUnsigned(Wrap(n, size), size))
  }

  lemma {:induction false} UnsignedRoundTrip(u: nat, size: nat)
    requires u < Pow256(size)
    ensures FromUnsigned(ToUnsigned(u, size)) == u
  {
    if size > 0 {
      var bs := ToUnsigned(u, size);
      assert bs[1..] == ToUnsigned(u / 256, size - 1);
      UnsignedRoundTrip(u / 256, size - 1);
    }
  }

  lemma {:induction false} UnsignedInverse(bs: seq<byte>)
    ensures ToUnsigned(FromUnsigned(bs), |bs|) == bs
  {
    if |bs| > 0 {
      var u := FromUnsigned(bs);
      var rest := FromUnsigned(bs[1..]);
      assert u % 256 == bs[0] && u / 256 == rest;
      UnsignedInverse(bs[1..]);
      assert ToUnsigned(u, |bs|) == [bs[0]] + bs[1..];
    }
  }

  lemma TwosComplementRoundTrip(n: int, size: nat)
    requires InRange(n, size)
    ensures DecodeLE(ToUnsigned(Wrap(n, size), size)) == n
  {
    if size > 0 {
      assert Pow256(size) == 2 * Half(size);
    }
    UnsignedRoundTrip(Wrap(n, size), size);
  }

  /** Every byte string is the encoding of its own decoding: no two byte strings of
      one width decode to the same integer, and every pattern is a valid encoding. */
  lemma DecodeEncode(bs: seq<byte>)
    ensures EncodeLE(DecodeLE(bs), |bs|) == Ok(bs)
  {
    var n := DecodeLE(bs);
    if |bs| > 0 {
      assert Pow256(|bs|) == 2 * Half(|bs|);
    }
    assert Wrap(n, |bs|) == FromUnsigned(bs);
    UnsignedInverse(bs);
  }

  /** A product m * k with |m * k| < m has k == 0. */
  lemma SmallMultiple(m: int, k: int)
    requires m > 0 && -m < m * k < m
    ensures k == 0
  {
  }

  /** The quotient is the unique q with u == m * q + r and 0 <= r < m. */
  lemma DivUnique(u: int, m: int, q: int, r: int)
    requires m > 0 && 0 <= r < m && u == m * q + r
    ensures u / m == q
  {
    var q0, r0 := u / m, u % m;
    assert u == m * q0 + r0;
    assert m * (q - q0) == r0 - r;
    SmallMultiple(m, q - q0);
  }

  /** Dividing by 256 then by b is dividing by 256 * b. */
  lemma DivDiv(u: nat, b: nat)
    requires b > 0
    ensures u / 256 / b == u / (256 * b)
  {
    var q := u / 256;
    var q2 := q / b;
    var rb := q % b;
    assert q == b * q2 + rb;
    assert u == 256 * q + u % 256;
    assert 256 * q == (256 * b) * q2 + 256 * rb;
    assert 256 * rb <= 256 * (b - 1);
    DivUnique(u, 256 * b, q2, 256 * rb + u % 256);
  }

  /** Byte i of the unsigned encoding is base-256 digit i of the value: the
      least significant byte comes first. */
  lemma {:induction false} UnsignedDigit(u: nat, size: nat, i: nat)
    requires i < size
    ensures ToUnsigned(u, size)[i] == (u / Pow256(i)) % 256
  {
    if i > 0 {
      UnsignedDigit(u / 256, size - 1, i - 1);
      DivDiv(u, Pow256(i - 1));
    }
  }

  /** The encoding is little-endian: byte i of `EncodeLE(n, size)` is digit i,
      counting from the least significant, of n's two's-complement pattern. */
  lemma LittleEndianDigits(n: int, size: int, i: nat)
    requires EncodeLE(n, size).Ok? && i < size
    ensures EncodeLE(n, size).value[i] == (Wrap(n, size) / Pow256(i)) % 256
  {
    UnsignedDigit(Wrap(n, size), size, i);
  }

  /** Encoding is injective on its domain: equal encodings come from equal integers.
      A corollary of the round trip in `EncodeLE`'s contract, so it needs no proof steps. */
  lemma EncodeInjective(n: int, m: int, size: int)
    requires EncodeLE(n, size).Ok? && EncodeLE(m, size).Ok?
    requires EncodeLE(n, size) == EncodeLE(m, size)
    ensures n == m
  {
  }
}

=== FILE: scenarios.dfy ===
/** Concrete boundary cases and an end-to-end layout, stated on literal streams. */
module Scenarios {
  import opened Errors
  import opened LittleEndian
  import opened Streams
  import opened BinaryFile
  import opened Laws

  /** The UTF-8 bytes of "Hello, World!". */
  const Hello: seq<byte> := [72, 101, 108, 108, 111, 44, 32, 87, 111, 114, 108, 100, 33]

  /** One signed byte holds -128 .. 127: 127 and -128 are written and round-trip,
      128 and -129 raise OverflowError and write nothing. */
  lemma OneByteBoundary(s: Stream)
    ensures WriteInteger(s, 128, 1) == Raised(s, Overflow)
    ensures WriteInteger(s, -129, 1) == Raised(s, Overflow)
    ensures WriteInteger(s, 127, 1).Done? && WriteInteger(s, -128, 1).Done?
    ensures ReadInteger(Goto(WriteInteger(s, 127, 1).st, s.cursor), 1).value == 127
  {
    IntegerRoundTrip(s, 127, 1);
  }

  /** Known answers that fix the byte order: the low byte comes first. */
  lemma KnownEncodings()
    ensures EncodeLE(256, 2) == Ok([0, 1])
    ensures EncodeLE(-2, 2) == Ok([254, 255])
    ensures EncodeLE(-32768, 2) == Ok([0, 128])
    ensures EncodeLE(42, 4) == Ok([42, 0, 0, 0])
  {
    assert Pow256(2) == 65536 && Half(2) == 32768;
    assert ToUnsigned(256, 2) == [0] + ToUnsigned(1, 1);
    assert ToUnsigned(65534, 2) == [254] + ToUnsigned(255, 1);
    assert ToUnsigned(32768, 2) == [0] + ToUnsigned(128, 1);
    assert ToUnsigned(42, 4) == [42] + ToUnsigned(0, 3);
    assert ToUnsigned(0, 3) == [0] + ToUnsigned(0, 2);
    assert ToUnsigned(0, 2) == [0] + ToUnsigned(0, 1);
    assert ToUnsigned(1, 1) == [1] && ToUnsigned(255, 1) == [255];
    assert ToUnsigned(128, 1) == [128] && ToUnsigned(0, 1) == [0];
    assert InRange(256, 2) && Wrap(256, 2) == 256;
    assert InRange(-2, 2) && Wrap(-2, 2) == 65534;
    assert InRange(-32768, 2) && Wrap(-32768, 2) == 32768;
    assert Pow256(4) == 4294967296 && InRange(42, 4) && Wrap(42, 4) == 42;
    assert ToUnsigned(256, 2) == [0, 1];
    assert EncodeLE(256, 2) == Ok(ToUnsigned(256, 2));
    assert ToUnsigned(65534, 2) == [254, 255];
    assert EncodeLE(-2, 2) == Ok(ToUnsigned(65534, 2));
    assert ToUnsigned(32768, 2) == [0, 128];
    assert EncodeLE(-32768, 2) == Ok(ToUnsigned(32768, 2));
    assert ToUnsigned(42, 4) == [42, 0, 0, 0];
    assert EncodeLE(42, 4) == Ok(ToUnsigned(42, 4));
  }

  /** A negative width raises ValueError before anything is written. */
  lemma NegativeWidthRaises(s: Stream, n: int)
    ensures WriteInteger(s, n, -1) == Raised(s, NegativeLength)
  {
  }

  /** The prefix is signed: a 32767-byte payload is written, a 32768-byte one
      raises OverflowError. */
  lemma StringLengthBoundary(s: Stream, p: seq<byte>, q: seq<byte>)
    requires |p| == 32767 && |q| == 32768
    ensures WriteString(s, p).Done? && WriteString(s, p).value == 32769
    ensures WriteString(s, q) == Raised(s, Overflow)
  {
  }

  /** A prefix of 0xFFFF reads as -1, so the "payload" is the rest of the stream. */
  lemma NegativePrefixReadsToEnd()
    ensures ReadString(Stream([255, 255, 1, 2, 3], 0)) == Done(Stream([255, 255, 1, 2, 3], 5), [1, 2, 3])
  {
    assert DecodeLE([255, 255]) == -1;
  }

  /** On an empty stream: write 42 in 4 bytes and "Hello, World!", seek to 0, read
      the integer and then the string; the stream holds 4 + 2 + 13 bytes. */
  lemma WriteThenReadBack()
    ensures var w1 := WriteInteger(Stream([], 0), 42, 4);
            var w2 := WriteString(w1.st, Hello);
            var r1 := ReadInteger(Goto(w2.st, 0), 4);
            var r2 := ReadString(r1.st);
              && w1.Done? && w2.Done?
              && GetSize(w2.st).1 == 19
              && r1.value == 42
              && r2.value == Hello && r2.st.cursor == 19
  {
    var s0 := Stream([], 0);
    var w1 := WriteInteger(s0, 42, 4);
    IntegerRoundTrip(s0, 42, 4);
    StringRoundTrip(w1.st, Hello);
    var w2 := WriteString(w1.st, Hello);
    var cell := EncodeLE(|Hello|, 2).value + Hello;
    assert w2.st == Write(w1.st, cell) by {
      WriteConcat(w1.st, EncodeLE(|Hello|, 2).value, Hello);
    }
    IntegerCellSurvivesWrite(w1.st, cell, 0, 4);
    assert ReadInteger(Goto(w1.st, 0), 4).value == 42;
    assert ReadInteger(Goto(w2.st, 0), 4).st == Goto(w2.st, 4);
  }
}

=== FILE: streams.dfy ===
/** An abstract seekable byte stream: the bytes it holds and a cursor that may
    point past the end, with the four file primitives the accessor relies on. */
module Streams {
  import opened LittleEndian

  datatype Stream = Stream(data: seq<byte>, cursor: nat)

  /** The two origins the accessor seeks from (`io.SEEK_SET`, `io.SEEK_END`). */
  datatype Whence = FromStart | FromEnd

  function Min(a: int, b: int): int { if a <= b then a else b }
  function Max(a: int, b: int): int { if a >= b then a else b }

  function Zeros(n: nat): (z: seq<byte>)
    ensures |z| == n
    ensures forall i :: 0 <= i < n ==> z[i] == 0
  {
    seq(n, _ => 0)
  }

  /** The byte a stream reads at offset i; a hole past the end reads as zero. */
  function ByteAt(data: seq<byte>, i: nat): byte {
    if i < |data| then data[i] else 0
  }

  /** Bytes left between the cursor and the end of the stream. */
  function Remaining(s: Stream): nat {
    if s.cursor < |s.data| then |s.data| - s.cursor else 0
  }

  /** `file.tell()`: the cursor, which a later `seek` from the start restores
      exactly (the save/restore pattern of the positional variants). */
  function Tell(s: Stream): (pos: nat)
    ensures Seek(s, pos, FromStart) == s
  {
    s.cursor
  }

  predicate CanSeek(s: Stream, offset: int, whence: Whence) {
    match whence
    case FromStart => offset >= 0
    case FromEnd => |s.data| + offset >= 0
  }

  function Seek(s: Stream, offset: int, whence: Whence): (r: Stream)
    requires CanSeek(s, offset, whence)
    ensures r.data == s.data
    ensures whence == FromStart ==> r.cursor == offset
    ensures whence == FromEnd ==> r.cursor == |s.data| + offset
  {
    match whence
    case FromStart => Stream(s.data, offset)
    case FromEnd => Stream(s.data, |s.data| + offset)
  }

  /** `after` is `before` with `bs` laid over it from offset `at`: the stream grows
      to cover the new bytes, any gap between the old end and `at` is zero-filled,
      and every byte outside [at, at + |bs|) keeps its value. An empty write leaves
      the bytes, and so the length, as they were. */
  ghost predicate Overwrites(before: seq<byte>, at: nat, bs: seq<byte>, after: seq<byte>) {
    && |after| == (if |bs| == 0 then |before| else Max(|before|, at + |bs|))
    && (forall i :: 0 <= i < |bs| ==> at + i < |after| && after[at + i] == bs[i])
    && (forall i :: 0 <= i < |after| && !(at <= i < at + |bs|) ==> after[i] == ByteAt(before, i))
  }

  /** `file.read(k)`: up to k bytes from the cursor (all of the rest when k is
      negative), fewer only at the end of the stream; the cursor moves past them. */
  function Read(s: Stream, k: int): (r: (Stream, seq<byte>))
    ensures r.0.data == s.data
    ensures r.0.cursor == s.cursor + |r.1|
    ensures forall i :: 0 <= i < |r.1| ==> s.cursor + i < |s.data| && r.1[i] == s.data[s.cursor + i]
    ensures |r.1| == if k < 0 then Remaining(s) else Min(k, Remaining(s))
  {
    var lo := Min(s.cursor, |s.data|);
    var hi := if k < 0 then |s.data| else Max(lo, Min(s.cursor + k, |s.data|));
    (Stream(s.data, s.cursor + (hi - lo)), s.data[lo..hi])
  }

  /** `file.write(bs)`: overwrite from the cursor, zero-padding first when the
      cursor lies past the end; the cursor moves past the written bytes. */
  function Write(s: Stream, bs: seq<byte>): (r: Stream)
    ensures r.cursor == s.cursor + |bs|
    ensures Overwrites(s.data, s.cursor, bs, r.data)
    ensures |bs| > 0 ==> s.cursor + |bs| <= |r.data| && r.data[s.cursor .. s.cursor + |bs|] == bs
  {
    if |bs| == 0 then s
    else
      var padded := if s.cursor <= |s.data| then s.data else s.data + Zeros(s.cursor - |s.data|);
      var end := s.cursor + |bs|;
      var tail := if end < |padded| then padded[end..] else [];
      var data := padded[..s.cursor] + bs + tail;
      assert forall i :: 0 <= i < |padded| ==> padded[i] == ByteAt(s.data, i);
      assert forall i :: 0 <= i < |bs| ==> data[s.cursor + i] == bs[i];
      assert data[s.cursor .. end] == bs;
      Stream(data, end)
  }

  /** Overwrites fixes its result: the laid-over stream is determined by the old
      bytes, the offset and the new bytes. */
  lemma OverwritesUnique(before: seq<byte>, at: nat, bs: seq<byte>, x: seq<byte>, y: seq<byte>)
    requires Overwrites(before, at, bs, x) && Overwrites(before, at, bs, y)
    ensures x == y
  {
    forall i | 0 <= i < |x|
      ensures x[i] == y[i]
    {
      if at <= i < at + |bs| {
        assert x[at + (i - at)] == bs[i - at];
      }
    }
  }

  /** Two consecutive writes lay down the same bytes as one write of their
      concatenation. */
  lemma WriteConcat(s: Stream, a: seq<byte>, b: seq<byte>)
    ensures Write(Write(s, a), b) == Write(s, a + b)
  {
    var s1 := Write(s, a);
    var s2 := Write(s1, b);
    var c := s.cursor;
    if |a| == 0 {
      assert a + b == b;
    } else if |b| == 0 {
      assert a + b == a;
    } else {
      var ab := a + b;
      forall i | 0 <= i < |ab|
        ensures c + i < |s2.data| && s2.data[c + i] == ab[i]
      {
        if i < |a| {
          assert s1.data[c + i] == a[i];
        } else {
          assert s2.data[s1.cursor + (i - |a|)] == b[i - |a|];
        }
      }
      forall i | 0 <= i < |s2.data| && !(c <= i < c + |ab|)
        ensures s2.data[i] == ByteAt(s.data, i)
      {
        assert s2.data[i] == ByteAt(s1.data, i);
      }
      assert Overwrites(s.data, c, ab, s2.data);
      OverwritesUnique(s.data, c, ab, s2.data, Write(s, ab).data);
    }
  }
}
